=== FILE: README.md ===
# Riot tracker stats — a Dafny model of the progress job

The job looks up each player of a roster on the Riot API. It pages through
their ranked match history since the start of the split and counts the solo/duo
games that are not remakes. It records the first and last of those games and
the player's progress toward the 50-game goal. Then it posts a one-line-per-player
summary to a Discord webhook. Every GET to the Riot API goes through `fetchWithRetry`, which
retries rate-limit (429), bad-gateway (502) and service-unavailable (503)
failures with a capped exponential backoff.

This project models that job's logic in Dafny and proves properties of the model.
The network is replaced by data:

- One request's answers are a **script**: the answer to the first GET, the
  second GET, and so on. Each answer is the response body or a failure that may
  carry an HTTP status. A GET past the end of its script gets a failure with no
  status, which is a network error the fetcher rethrows.
- Each player has a **world**: the script of the account lookup, the script of
  the match-id listing for each page number, and the script of each listed
  match's detail fetch.

Modules, one per part of the job:

- `Optional`: the `Option` type.
- `Fetcher`: `fetchWithRetry`, as the recursive function `Retry`. It reports
  the result, the number of GETs issued and the waits slept.
- `Matches`: the three-part filter on a match's `info`, and the
  count/first/last fold over the counted matches. `CountedEnds` is its
  reference definition.
- `Paging`: the page loop, written as the job writes it (`PageLoop`, wrapped
  by `Paginate` with the shape of its requests), and a closed-form reference
  (`Pagination`) proved equal to it.
- `Decimal`: how a template literal renders a count below 2^53, as
  JavaScript renders it.
- `Players`: the status, the per-player `try`/`catch`, the roster loop, and
  the summary text.

## Model

| member | source | states |
|---|---|---|
| Fetcher.Retry | index.js:31-50 | `FetchWithRetry` is `Retry` started at attempt 0 with no waits. At most 12 and at least 1 GET. A success returns that attempt's data. A failure whose status is not 429, 502 or 503 (or has no status) is rethrown on that attempt with its status. The result is "retries exceeded" exactly when all 12 attempts failed transiently. Every attempt before the deciding one failed transiently, and one backoff wait was slept per transient failure. |
| Fetcher.Backoff | index.js:40 | Every wait lies between 1000 and 10000 ms. |
| Fetcher.BackoffNonDecreasing | index.js:40 | The waits never shrink as the attempt number grows. |
| Fetcher.BackoffValues | index.js:40 | Over the reals, the waits are 1000, 1600, 2560, 4096 and 6553.6 ms, then the 10000 ms cap from the sixth wait on. |
| Fetcher.NonTransientFailureIsRethrown | index.js:38-46 | A non-transient failure on attempt k, after k transient ones, is rethrown with exactly k+1 GETs and k backoff waits. |
| Fetcher.SuccessReturnsData | index.js:33-36 | A success on attempt k, after k transient failures, returns its data after exactly k+1 GETs. |
| Fetcher.TwelveTransientFailuresExhaust | index.js:33-49 | Twelve transient failures give "Rate-limit retries exceeded." after 12 GETs and 12 waits. |
| Fetcher.OnlyIssuedRequestsMatter | index.js:33-49 | Two servers that agree on the GETs actually issued give the same fetch. No request is made past the deciding one. |
| Fetcher.SilentServerIsRethrown | index.js:35-45 | A request with no response is rethrown after a single GET with no wait. |
| Matches.EndSecond | index.js:88 | The whole second in which the game ended, rounded toward minus infinity. |
| Matches.IsCounted | index.js:86-89 | A counted match has an `info`, is in queue 420, ended no earlier than the split's first millisecond, and lasted more than 300 s unless remakes count. |
| Matches.CountedIffEndsAfterSplitStart | index.js:86-89 | A match counts iff its `info` is present, its queue is 420, it is longer than 300 s (unless remakes count), and it ended at or after the first millisecond of the split. |
| Matches.RemakesNeverCount | index.js:86-89 | With remakes excluded, a game of 300 s or less never counts. |
| Matches.Record | index.js:91-94 | Counting one more game adds one to the count. The first game becomes the earlier of the old first game and this one, and the last game the later of the old last game and this one. |
| Matches.TallyAll | index.js:81-95 | Over a run of matches the count grows by at most one per match. The first game only moves earlier and the last only later. |
| Matches.TallyAllSummarizes | index.js:81-95 | The fold over a run of matches extends a summary of earlier end times by the end times of the counted matches. |
| Matches.TallyCountsFilteredMatches | index.js:91-94 | From zero, the count is the number of counted matches. First and last are absent iff none counted; otherwise they are the least and greatest counted end time. |
| Matches.FirstNotAfterLast | index.js:91-94 | When some match counted, the first game does not end after the last one. |
| Matches.TallyAllAppend | index.js:67-69 | Folding two runs in turn is folding their concatenation, so the tally carries over from page to page. |
| Paging.PagesRead | index.js:74-98 | Between 1 and 8 listings are requested. Each but the last continues the loop, and the last stops it unless it is the eighth. |
| Paging.TallyDetails | index.js:81-95 | One page's matches: the tally succeeds iff every detail fetch succeeded. On success it is the fold over their `info`s; otherwise the error is that of the first failed detail fetch. |
| Paging.TallyPage | index.js:81-95 | The inner loop as written equals `TallyDetails` and fails iff a detail fetch fails. |
| Paging.ReadPage | index.js:76-97 | One pass of the page loop ends the loop iff the listing failed, is not an array, is empty, has a failed match, or is short. When it ends the loop its outcome is the last page's; otherwise the page's matches are folded into the tally. |
| Paging.Paginate | index.js:67-99 | The loop as written equals the closed-form reference. It makes 1 to 8 listing requests, each at `start` equal to the number of ids on earlier pages, and stops exactly where the reference stops. |
| Paging.PageLoop | index.js:67-99 | The loop as written, with `start`, `page` and the tally carried along, equals the closed-form reference `Pagination`: same outcome, same `start` offsets. |
| Paging.PaginationShape | index.js:74-98 | In the reference, at most 8 listings are requested, each at the offset of the ids before it. Every one but the last continues the loop. |
| Paging.PaginationTally | index.js:81-99 | A successful loop counts exactly the matches of the pages it read that the filter accepts, with their earliest and latest end times. |
| Paging.PaginationFailure | index.js:77-83 | The loop fails iff the last listing requested failed, or one of its matches failed. The error is that fetch's error. |
| Paging.ShortPageEndsLoop | index.js:79-97 | A short page after full pages is processed and then ends the loop before eight pages are read. |
| Paging.UnusablePageEndsLoop | index.js:77-79 | A page that is not an array, or is empty, ends the loop before any of it is processed. |
| Paging.OffsetsAreMultiplesOfPageSize | index.js:70-98 | When no listing has more than 50 ids, the k-th listing is requested at `start` = 50·k. |
| Paging.EightFullPages | index.js:74-98 | Eight full pages, all fetched, give the tally of all their matches. |
| Paging.CountedEndsByPage | index.js:74-98 | The counted games of the pages read are each page's counted games, in page order. |
| Players.ResolvedListingAt | index.js:76-84 | Every page number, including ones past the listings given, reads what its own listing fetch returned. |
| Players.DeriveStatus | index.js:103-105 | The status is "Completed" iff the count is at least 50. Otherwise it is "N left" with N = 50 − count and 0 < N ≤ 50. It is never the error status. |
| Players.StatusText | index.js:103-112 | The status text starts with "✅" exactly when the goal is completed, and with "❌" otherwise. |
| Players.StatusTexts | index.js:103-112 | The three status texts are exactly "✅ Completed 50", "❌ N left" with N in decimal, and "❌ Error". |
| Players.ErrorRecord | index.js:110-112 | The catch record keeps the name and tag, has no games and no dates, and shows "❌ Error". |
| Players.Finish | index.js:101-108 | A failed page loop gives the catch record. Otherwise the record holds the loop's count, first and last game, and the status that count earns. |
| Players.StatusTextInjective | index.js:103-112 | Distinct statuses render as distinct status text, and so do distinct numbers left. |
| Players.ProcessPlayer | index.js:58-113 | The record keeps the player's name and tag. A failed player gets the zero record with the error status; otherwise the status is the one its count earns. |
| Players.ProcessPlayerTally | index.js:63-108 | A record has the error status iff the account lookup or the page loop failed. Otherwise it holds the count and the first and last end times of the counted matches of the pages read. |
| Players.FailedLookupGivesErrorRecord | index.js:63-112 | A failed account lookup gives the zero record with the error status. |
| Players.ProcessOne | index.js:58-113 | One player's `try`/`catch`, run with the page loop as written, gives that player's record. |
| Players.ProcessPlayers | index.js:53-114 | There is exactly one record per player, in roster order, with the player's name and tag. Each record depends only on that player's own requests, so a failed player never affects another. |
| Players.BuildSummary | index.js:120-124 | The summary is the header followed by one line per record, in order. |
| Players.SummaryLineCount | index.js:123 | The game count can be read back from a record's line: the digits right after the bold name and the dash denote exactly the record's count. |
| Players.SummaryLine | index.js:123 | Each record's line starts with its name in bold and ends with its status text and a newline. |
| Decimal.Render | index.js:105 | The rendered number is a non-empty string of decimal digits with no leading zero. |
| Decimal.RenderRoundTrip | index.js:105 | Reading the digits back gives the number rendered. |
| Decimal.RenderInjective | index.js:123 | Distinct counts render differently. |

## Left out

- The HTTP layer is left out: axios GET and POST, URL building, `encodeURIComponent` and the API key. Scripts of answers stand in for the server.
- `sleep` and the 400 ms pacing delays are left out; they are timing only. The backoff waits are still recorded, as values.
- `console.log` diagnostics are left out.
- Parsing `SPLIT_START_DATE` with `Date` is left out. The split start in Unix seconds is a parameter.
- The ISO date strings of the first and last game are left out. The records keep the end timestamps in milliseconds, and "absent" stands for the empty string.
- The webhook POST and the swallowing of its error are left out; only the summary text is built.
- Async/await sequencing is left out. The job is sequential.
- Fetcher.Backoff: computed over exact reals, not IEEE doubles, so floating-point rounding of 1.6^k is not modelled.
- The account body is kept as an opaque string (the `puuid`). A `null` account body, and the TypeError it causes at index.js:64, are not modelled. A body without a `puuid` throws nothing there; it only changes the listing URLs, whose answers the listing scripts already stand for.
- A match detail body that is `null`, and an `info` missing some of the fields read, are not modelled. An `info` is either absent or has integer `queueId`, `gameDuration` and `gameEndTimestamp`.
- Players.ProcessPlayer: every listing and match script of a player is resolved through the fetcher, including ones the loop never requests. The record is the same as the job's, but the model does not count the GETs one player makes.
- Paging.OffsetsAreMultiplesOfPageSize: proved only when no listing returns more than 50 ids. The job asks for 50 but does not check the count, and `start` is always the number of ids already returned (`Paginate` states that in general).
- `INCLUDE_REMAKES` is a flag of the filter. `JobFilter` fixes it to false, as configured; the lemmas of `Matches` hold for both values.
- Matches.Record: end timestamps are unbounded integers, but a JavaScript `Date` only holds |ts| ≤ 8.64e15 ms. For a game outside that range `new Date(ts)` is an Invalid Date, and every comparison with it is false. If `firstGame`/`lastGame` are already set, the job never moves them onto such a game; `Record` takes the min and max anyway. For example, counted games at 1e12 and then 9e15 leave the job's last game at 1e12, and the model's at 9e15.
- Players.Finish: when the first or last game is an Invalid Date (an end timestamp beyond ±8.64e15 ms), `toISOString()` throws a RangeError, and the job's catch pushes the error record with 0 games. `Finish` records the count instead. For example, a single counted game (queue 420, 1000 s, end 9e15) gives the job "❌ Error" and the model `Left(49)`. `ProcessPlayerTally`'s "error iff the lookup or the loop failed" holds for the model, not for the job in that case.
- Decimal.Render: it renders every natural number as plain digits. JavaScript renders a number exactly only below 2^53: above that the double is already rounded (2^60 prints as "1152921504606847000"), and from 10^21 on it uses exponent form ("1e+21"). Also, `totalMatches++` on a double stops growing at 2^53, while the model's count and `Record`'s `total + 1` are unbounded. Neither is reachable in practice, since eight listings of the size asked for hold at most 400 matches.

=== FILE: decimal.dfy ===
/** How a JavaScript template literal renders a count below 2^53: its
    decimal digits, without leading zeros. */
module Decimal {

  function DigitChar(d: nat): (c: char)
    requires d < 10
    ensures '0' <= c <= '9'
  {
    "0123456789"[d]
  }

  function DigitValue(c: char): nat {
    if '0' <= c <= '9' then (c - '0') as nat else 0
  }

  predicate IsDigits(s: string) {
    forall i :: 0 <= i < |s| ==> '0' <= s[i] <= '9'
  }

  /** `${n}` for a non-negative integer `n`. */
  function Render(n: nat): (s: string)
    ensures |s| >= 1 && IsDigits(s)
    ensures s[0] == '0' ==> n == 0
  {
    if n < 10 then [DigitChar(n)] else Render(n / 10) + [DigitChar(n % 10)]
  }

  /** The number a string of decimal digits denotes. */
  function Value(s: string): nat {
    if |s| == 0 then 0 else Value(s[..|s| - 1]) * 10 + DigitValue(s[|s| - 1])
  }

  /** Reading the digits back gives the number rendered. */
  lemma {:induction false} RenderRoundTrip(n: nat)
    ensures Value(Render(n)) == n
  {
    if n >= 10 {
      RenderRoundTrip(n / 10);
      var s := Render(n);
      assert s[..|s| - 1] == Render(n / 10);
      assert DigitValue(DigitChar(n % 10)) == n % 10 by {
        var d := n % 10;
        assert d == 0 || d == 1 || d == 2 || d == 3 || d == 4 || d == 5 || d == 6 || d == 7 || d == 8 || d == 9;
      }
    } else {
      assert DigitValue(DigitChar(n)) == n by {
        assert n == 0 || n == 1 || n == 2 || n == 3 || n == 4 || n == 5 || n == 6 || n == 7 || n == 8 || n == 9;
      }
      assert Render(n)[..0] == [];
    }
  }

  /** Distinct numbers render differently. */
  lemma RenderInjective(a: nat, b: nat)
    requires Render(a) == Render(b)
    ensures a == b
  {
    RenderRoundTrip(a);
    RenderRoundTrip(b);
  }

  /** The split goal renders as "50". */
  lemma RenderFifty()
    ensures Render(50) == "50"
  {
  }
}

=== FILE: fetcher.dfy ===
/** The rate-limited fetcher (`fetchWithRetry`).

    The network is replaced by a *script*: the answer the server gives to the
    first, second, third, ... GET of one URL. A request past the end of the
    script gets no response at all (a network error without a status), which
    the fetcher treats like any other failure whose status is not transient. */
module Fetcher {
  import opened Optional

  /** Attempts made before giving up with "Rate-limit retries exceeded." */
  const MaxAttempts: nat := 12
  /** Too Many Requests, Bad Gateway, Service Unavailable. */
  const RetryableStatuses: set<int> := {429, 502, 503}
  const BackoffBaseMs: real := 1000.0
  const BackoffGrowth: real := 1.6
  const BackoffCapMs: real := 10000.0

  /** The outcome of one GET: the response body, or a failure that may carry
      an HTTP status (`err.response?.status`). */
  datatype Attempt<+T> = Success(data: T) | Failure(status: Option<int>)

  type Script<T> = seq<Attempt<T>>

  /** Why a fetch gave up: a failure rethrown at once, or twelve transient
      failures in a row. */
  datatype FetchError = Rethrown(status: Option<int>) | RetriesExceeded

  datatype Result<+T> = Ok(value: T) | Err(error: FetchError)

  /** What one call of the fetcher did: its result, how many GETs it issued,
      and the backoff waits it slept, in order. */
  datatype Fetch<+T> = Fetch(result: Result<T>, requests: nat, waits: seq<real>)

  predicate Retryable(status: Option<int>) {
    status.Some? && status.value in RetryableStatuses
  }

  /** The server's answer to attempt `k` (counting from 0). */
  function ResponseAt<T>(script: Script<T>, k: nat): Attempt<T> {
    if k < |script| then script[k] else Failure(None)
  }

  /** Attempt `k` failed with a transient status, so the fetcher waits and
      tries again. */
  predicate RetriedAt<T>(script: Script<T>, k: nat) {
    ResponseAt(script, k).Failure? && Retryable(ResponseAt(script, k).status)
  }

  predicate RetriedBefore<T>(script: Script<T>, n: nat) {
    forall k: nat :: k < n ==> RetriedAt(script, k)
  }

  function Pow(b: real, k: nat): real {
    if k == 0 then 1.0 else b * Pow(b, k - 1)
  }

  function Min(a: real, b: real): real {
    if a <= b then a else b
  }

  /** The wait after transient failure number `k` (counting from 0):
      min(10000, 1000 * 1.6^k) milliseconds. */
  function Backoff(k: nat): (w: real)
    ensures BackoffBaseMs <= w <= BackoffCapMs
  {
    PowAtLeastOne(BackoffGrowth, k);
    Min(BackoffCapMs, BackoffBaseMs * Pow(BackoffGrowth, k))
  }

  /** `waits` is the backoff sequence from its start. */
  predicate BackoffSchedule(waits: seq<real>) {
    forall k :: 0 <= k < |waits| ==> waits[k] == Backoff(k)
  }

  /** The retry loop from the point where `attempts` transient failures have
      already been waited out. */
  function Retry<T>(script: Script<T>, attempts: nat, waits: seq<real>): (f: Fetch<T>)
    requires attempts <= MaxAttempts
    requires |waits| == attempts && BackoffSchedule(waits)
    requires RetriedBefore(script, attempts)
    decreases MaxAttempts - attempts
    ensures attempts <= f.requests <= MaxAttempts && 1 <= f.requests
    ensures BackoffSchedule(f.waits)
    ensures RetriedBefore(script, f.requests - 1)
    ensures f.result == Err(RetriesExceeded) <==> RetriedBefore(script, MaxAttempts)
    ensures f.result == Err(RetriesExceeded) ==> f.requests == MaxAttempts && |f.waits| == MaxAttempts
    ensures f.result != Err(RetriesExceeded) ==>
              !RetriedAt(script, f.requests - 1) && |f.waits| == f.requests - 1
    ensures f.result.Ok? <==> ResponseAt(script, f.requests - 1).Success?
    ensures f.result.Ok? ==> f.result.value == ResponseAt(script, f.requests - 1).data
    ensures f.result.Err? && f.result.error.Rethrown? <==>
              ResponseAt(script, f.requests - 1).Failure? && !Retryable(ResponseAt(script, f.requests - 1).status)
    ensures f.result.Err? && f.result.error.Rethrown? ==>
              f.result.error.status == ResponseAt(script, f.requests - 1).status
  {
    if attempts == MaxAttempts then
      assert RetriedAt(script, attempts - 1);
      Fetch(Err(RetriesExceeded), attempts, waits)
    else
      match ResponseAt(script, attempts)
      case Success(data) =>
        assert !RetriedAt(script, attempts);
        Fetch(Ok(data), attempts + 1, waits)
      case Failure(code) =>
        if Retryable(code) then
          Retry(script, attempts + 1, waits + [Backoff(attempts)])
        else
          assert !RetriedAt(script, attempts);
          Fetch(Err(Rethrown(code)), attempts + 1, waits)
  }

  /** `fetchWithRetry(url)`, the server's answers to that URL given as `script`. */
  function FetchWithRetry<T>(script: Script<T>): Fetch<T> {
    Retry(script, 0, [])
  }

  lemma {:induction false} PowAtLeastOne(b: real, k: nat)
    requires b >= 1.0
    ensures Pow(b, k) >= 1.0
  {
    if k > 0 {
      PowAtLeastOne(b, k - 1);
      assert b * Pow(b, k - 1) >= 1.0 * Pow(b, k - 1);
    }
  }

  lemma {:induction false} PowNonDecreasing(b: real, i: nat, j: nat)
    requires b >= 1.0 && i <= j
    ensures Pow(b, i) <= Pow(b, j)
  {
    if i < j {
      PowNonDecreasing(b, i, j - 1);
      PowAtLeastOne(b, j - 1);
      assert b * Pow(b, j - 1) >= 1.0 * Pow(b, j - 1);
    }
  }

  /** The waits never shrink as the attempt number grows. */
  lemma BackoffNonDecreasing(i: nat, j: nat)
    requires i <= j
    ensures Backoff(i) <= Backoff(j)
  {
    PowNonDecreasing(BackoffGrowth, i, j);
  }

  /** The first five waits are 1000, 1600, 2560, 4096 and 6553.6 ms; from the
      sixth on every wait is the 10000 ms cap. */
  lemma BackoffValues(k: nat)
    ensures Backoff(0) == 1000.0 && Backoff(1) == 1600.0 && Backoff(2) == 2560.0
    ensures Backoff(3) == 4096.0 && Backoff(4) == 6553.6
    ensures k >= 5 ==> Backoff(k) == BackoffCapMs
  {
    assert Pow(BackoffGrowth, 1) == 1.6;
    assert Pow(BackoffGrowth, 2) == 2.56;
    assert Pow(BackoffGrowth, 3) == 4.096;
    assert Pow(BackoffGrowth, 4) == 6.5536;
    assert Pow(BackoffGrowth, 5) == 10.48576;
    if k >= 5 {
      PowNonDecreasing(BackoffGrowth, 5, k);
    }
  }

  /** A failure whose status is not transient (or that has no status) ends
      the fetch on that very attempt, after waiting out the transient
      failures before it. */
  lemma NonTransientFailureIsRethrown<T>(script: Script<T>, k: nat)
    requires k < MaxAttempts && RetriedBefore(script, k)
    requires ResponseAt(script, k).Failure? && !Retryable(ResponseAt(script, k).status)
    ensures FetchWithRetry(script).result == Err(Rethrown(ResponseAt(script, k).status))
    ensures FetchWithRetry(script).requests == k + 1
    ensures |FetchWithRetry(script).waits| == k && BackoffSchedule(FetchWithRetry(script).waits)
  {
    AttemptsDetermined(script, FetchWithRetry(script), k);
  }

  /** A success on attempt `k`, after `k` transient failures, returns that
      attempt's data. */
  lemma SuccessReturnsData<T>(script: Script<T>, k: nat)
    requires k < MaxAttempts && RetriedBefore(script, k)
    requires ResponseAt(script, k).Success?
    ensures FetchWithRetry(script).result == Ok(ResponseAt(script, k).data)
    ensures FetchWithRetry(script).requests == k + 1
    ensures |FetchWithRetry(script).waits| == k && BackoffSchedule(FetchWithRetry(script).waits)
  {
    AttemptsDetermined(script, FetchWithRetry(script), k);
  }

  /** Twelve transient failures in a row exhaust the budget: twelve GETs,
      twelve waits, then "Rate-limit retries exceeded." */
  lemma TwelveTransientFailuresExhaust<T>(script: Script<T>)
    requires RetriedBefore(script, MaxAttempts)
    ensures FetchWithRetry(script).result == Err(RetriesExceeded)
    ensures FetchWithRetry(script).requests == MaxAttempts
    ensures |FetchWithRetry(script).waits| == MaxAttempts && BackoffSchedule(FetchWithRetry(script).waits)
  {
  }

  /** The fetch depends on the answers to the GETs it issued and on nothing
      after them: no request is made past the deciding attempt. */
  lemma OnlyIssuedRequestsMatter<T>(script: Script<T>, other: Script<T>)
    requires forall k: nat :: k < FetchWithRetry(script).requests ==> ResponseAt(other, k) == ResponseAt(script, k)
    ensures FetchWithRetry(other) == FetchWithRetry(script)
  {
    var f := FetchWithRetry(script);
    var n := f.requests;
    assert RetriedBefore(other, n - 1) by {
      forall k: nat | k < n - 1 ensures RetriedAt(other, k) {
        assert RetriedAt(script, k);
      }
    }
    var g := FetchWithRetry(other);
    if f.result == Err(RetriesExceeded) {
      assert RetriedAt(other, n - 1) by { assert RetriedAt(script, n - 1); }
      TwelveTransientFailuresExhaust(other);
    } else if f.result.Ok? {
      SuccessReturnsData(other, n - 1);
    } else {
      NonTransientFailureIsRethrown(other, n - 1);
    }
    WaitsDetermined(g.waits, f.waits);
  }

  /** A script with no answers is a request that never gets a response. */
  lemma SilentServerIsRethrown<T>(script: Script<T>)
    requires |script| == 0
    ensures FetchWithRetry(script).result == Err(Rethrown(None))
    ensures FetchWithRetry(script).requests == 1 && FetchWithRetry(script).waits == []
  {
    NonTransientFailureIsRethrown(script, 0);
  }

  // Helpers: the deciding attempt and the waits are determined by the script.

  lemma AttemptsDetermined<T>(script: Script<T>, f: Fetch<T>, k: nat)
    requires f == FetchWithRetry(script)
    requires k < MaxAttempts && RetriedBefore(script, k) && !RetriedAt(script, k)
    ensures f.requests == k + 1 && f.result != Err(RetriesExceeded)
  {
  }

  lemma WaitsDetermined(a: seq<real>, b: seq<real>)
    requires |a| == |b| && BackoffSchedule(a) && BackoffSchedule(b)
    ensures a == b
  {
  }
}

=== FILE: matches.dfy ===
/** Which fetched matches count toward the split goal, and the running tally
    kept over them: how many, and the earliest and latest end time. */
module Matches {
  import opened Optional

  /** Ranked solo/duo queue. */
  const SoloQueueId: int := 420
  /** Games of at most this many seconds are remakes. */
  const RemakeMaxSeconds: int := 300
  const MsPerSecond: int := 1000

  /** The fields of a match's `info` the filter reads. */
  datatype MatchInfo = MatchInfo(queueId: int, gameDuration: int, gameEndTimestamp: int)

  /** The filter's configuration: the split start in Unix seconds, and
      whether remakes count. */
  datatype Filter = Filter(splitStartUnix: int, includeRemakes: bool)

  /** The filter as configured in the job, where remakes never count. */
  function JobFilter(splitStartUnix: int): Filter {
    Filter(splitStartUnix, false)
  }

  /** `Math.floor(ts / 1000)`: the whole second in which the game ended. */
  function EndSecond(ts: int): (s: int)
    ensures s * MsPerSecond <= ts < s * MsPerSecond + MsPerSecond
  {
    ts / MsPerSecond
  }

  /** The match passes all three checks of the filter: a counted match is a
      solo/duo game that ended no earlier than the split's first millisecond,
      and is not a remake unless remakes count. */
  predicate IsCounted(info: Option<MatchInfo>, f: Filter)
    ensures IsCounted(info, f) ==>
              && info.Some?
              && info.value.queueId == SoloQueueId
              && info.value.gameEndTimestamp >= f.splitStartUnix * MsPerSecond
              && (!f.includeRemakes ==> info.value.gameDuration > RemakeMaxSeconds)
  {
    && info.Some?
    && info.value.queueId == SoloQueueId
    && (f.includeRemakes || info.value.gameDuration > RemakeMaxSeconds)
    && EndSecond(info.value.gameEndTimestamp) >= f.splitStartUnix
  }

  /** The split-start check, in milliseconds: a game counts from the first
      millisecond of the split's first second. */
  lemma CountedIffEndsAfterSplitStart(info: Option<MatchInfo>, f: Filter)
    ensures IsCounted(info, f) <==>
              && info.Some?
              && info.value.queueId == SoloQueueId
              && (f.includeRemakes || info.value.gameDuration > RemakeMaxSeconds)
              && info.value.gameEndTimestamp >= f.splitStartUnix * MsPerSecond
  {
  }

  /** With remakes excluded, a game of 300 seconds or less never counts,
      whatever its queue and end time. */
  lemma RemakesNeverCount(info: Option<MatchInfo>, splitStartUnix: int)
    requires info.Some? && info.value.gameDuration <= RemakeMaxSeconds
    ensures !IsCounted(info, JobFilter(splitStartUnix))
  {
  }

  /** The per-player accumulator: `totalMatches`, `firstGame`, `lastGame`. */
  datatype Tally = Tally(total: nat, first: Option<int>, last: Option<int>)

  const NoMatches: Tally := Tally(0, None, None)

  /** Count one more match that ended at `ts`: the first game becomes the
      earlier of the two, the last game the later. */
  function Record(t: Tally, ts: int): (r: Tally)
    ensures r.total == t.total + 1
    ensures r.first.Some? && r.first.value <= ts && (t.first.Some? ==> r.first.value <= t.first.value)
    ensures r.first.value == ts || r.first == t.first
    ensures r.last.Some? && ts <= r.last.value && (t.last.Some? ==> t.last.value <= r.last.value)
    ensures r.last.value == ts || r.last == t.last
  {
    Tally(
      t.total + 1,
      if t.first.None? || ts < t.first.value then Some(ts) else t.first,
      if t.last.None? || ts > t.last.value then Some(ts) else t.last)
  }

  /** One step of the inner loop over a page's matches. */
  function Absorb(t: Tally, info: Option<MatchInfo>, f: Filter): Tally {
    if IsCounted(info, f) then Record(t, info.value.gameEndTimestamp) else t
  }

  /** The inner loop over a run of matches, in order. It counts at most one
      per match, and the first game only moves earlier, the last only later. */
  function TallyAll(t: Tally, infos: seq<Option<MatchInfo>>, f: Filter): (r: Tally)
    decreases |infos|
    ensures t.total <= r.total <= t.total + |infos|
    ensures t.first.Some? ==> r.first.Some? && r.first.value <= t.first.value
    ensures t.last.Some? ==> r.last.Some? && t.last.value <= r.last.value
  {
    if |infos| == 0 then t else TallyAll(Absorb(t, infos[0], f), infos[1..], f)
  }

  /** Reference definition: the end times of the counted matches, in order. */
  function CountedEnds(infos: seq<Option<MatchInfo>>, f: Filter): seq<int>
    decreases |infos|
  {
    if |infos| == 0 then []
    else (if IsCounted(infos[0], f) then [infos[0].value.gameEndTimestamp] else [])
         + CountedEnds(infos[1..], f)
  }

  predicate IsLeast(x: int, s: seq<int>) {
    x in s && forall e :: e in s ==> x <= e
  }

  predicate IsGreatest(x: int, s: seq<int>) {
    x in s && forall e :: e in s ==> e <= x
  }

  /** `t` is the tally of exactly the end times `ends`: their number, and
      their minimum and maximum, which are absent iff there are none. */
  predicate Summarizes(t: Tally, ends: seq<int>) {
    && t.total == |ends|
    && (t.first.Some? <==> |ends| > 0)
    && (t.last.Some? <==> |ends| > 0)
    && (t.first.Some? ==> IsLeast(t.first.value, ends))
    && (t.last.Some? ==> IsGreatest(t.last.value, ends))
  }

  lemma RecordSummarizes(t: Tally, ends: seq<int>, ts: int)
    requires Summarizes(t, ends)
    ensures Summarizes(Record(t, ts), ends + [ts])
  {
    var r := Record(t, ts);
    forall e | e in ends + [ts]
      ensures r.first.value <= e <= r.last.value
    {
      if e != ts {
        assert e in ends;
      }
    }
  }

  lemma {:induction false} TallyAllSummarizes(t: Tally, ends: seq<int>, infos: seq<Option<MatchInfo>>, f: Filter)
    requires Summarizes(t, ends)
    ensures Summarizes(TallyAll(t, infos, f), ends + CountedEnds(infos, f))
    decreases |infos|
  {
    if |infos| == 0 {
      assert ends + CountedEnds(infos, f) == ends;
    } else {
      var head := if IsCounted(infos[0], f) then [infos[0].value.gameEndTimestamp] else [];
      if IsCounted(infos[0], f) {
        RecordSummarizes(t, ends, infos[0].value.gameEndTimestamp);
      } else {
        assert ends + head == ends;
      }
      TallyAllSummarizes(Absorb(t, infos[0], f), ends + head, infos[1..], f);
      assert (ends + head) + CountedEnds(infos[1..], f) == ends + CountedEnds(infos, f);
    }
  }

  /** Starting from nothing, the tally of a run of matches counts exactly the
      matches the filter accepts, and its first and last game are the
      earliest and latest of their end times (absent iff none counted). */
  lemma TallyCountsFilteredMatches(infos: seq<Option<MatchInfo>>, f: Filter)
    ensures Summarizes(TallyAll(NoMatches, infos, f), CountedEnds(infos, f))
  {
    TallyAllSummarizes(NoMatches, [], infos, f);
    assert [] + CountedEnds(infos, f) == CountedEnds(infos, f);
  }

  /** The first game never ends after the last one. */
  lemma FirstNotAfterLast(t: Tally, ends: seq<int>)
    requires Summarizes(t, ends) && t.total > 0
    ensures t.first.Some? && t.last.Some? && t.first.value <= t.last.value
  {
    assert t.last.value in ends;
  }

  /** Tallying two runs one after the other is tallying their concatenation:
      the tally carries over from page to page. */
  lemma {:induction false} TallyAllAppend(t: Tally, a: seq<Option<MatchInfo>>, b: seq<Option<MatchInfo>>, f: Filter)
    ensures TallyAll(t, a + b, f) == TallyAll(TallyAll(t, a, f), b, f)
    decreases |a|
  {
    if |a| == 0 {
      assert a + b == b;
    } else {
      assert (a + b)[1..] == a[1..] + b;
      TallyAllAppend(Absorb(t, a[0], f), a[1..], b, f);
    }
  }

  lemma {:induction false} CountedEndsAppend(a: seq<Option<MatchInfo>>, b: seq<Option<MatchInfo>>, f: Filter)
    ensures CountedEnds(a + b, f) == CountedEnds(a, f) + CountedEnds(b, f)
    decreases |a|
  {
    if |a| == 0 {
      assert a + b == b;
    } else {
      assert (a + b)[1..] == a[1..] + b;
      CountedEndsAppend(a[1..], b, f);
    }
  }
}

=== FILE: optional.dfy ===
/** A value that may be absent: a JavaScript field that is `null` or
    `undefined` (a match without `info`, a failure without a response status,
    a player with no game counted yet). */
module Optional {

  datatype Option<+T> = None | Some(value: T)
}

=== FILE: paging.dfy ===
/** The page loop of one player's aggregation: request up to eight listings
    of up to fifty match ids, fetch each match, and tally the ones that count.

    Each listing and each match detail is given here as the result of its
    fetch, retries included. */
module Paging {
  import opened Optional
  import opened Fetcher
  import opened Matches

  const PageSize: nat := 50
  const MaxPages: nat := 8

  /** A listing response: something that is not an array, or the ids of an
      array, each given by the fetched detail of that match. */
  datatype Listing = NotAnArray | Ids(details: seq<Result<Option<MatchInfo>>>)

  /** The fetched listing for each page number. */
  type Pages = seq<Result<Listing>>

  /** What the loop did: its outcome and the `start` offset of every listing
      it requested, in order. */
  datatype Run = Run(outcome: Result<Tally>, offsets: seq<nat>)

  /** The listing for page `k`; pages past the end were never answered. */
  function ListingAt(pages: Pages, k: nat): Result<Listing> {
    if k < |pages| then pages[k] else Err(Rethrown(None))
  }

  /** The number of ids page `k` returned (zero if it returned none, or no array). */
  function ListingLength(pages: Pages, k: nat): nat {
    match ListingAt(pages, k)
    case Ok(Ids(ds)) => |ds|
    case _ => 0
  }

  /** The ids returned by the pages before page `k`. */
  function StartOf(pages: Pages, k: nat): nat {
    if k == 0 then 0 else StartOf(pages, k - 1) + ListingLength(pages, k - 1)
  }

  predicate AllFetched(ds: seq<Result<Option<MatchInfo>>>) {
    forall i :: 0 <= i < |ds| ==> ds[i].Ok?
  }

  /** The fetched `info`s, in order. A failed detail fetch contributes
      nothing here; this is only read where every fetch of the page
      succeeded, or where the outcome is already that fetch's error. */
  function Infos(ds: seq<Result<Option<MatchInfo>>>): seq<Option<MatchInfo>>
    decreases |ds|
  {
    if |ds| == 0 then []
    else (if ds[0].Ok? then [ds[0].value] else []) + Infos(ds[1..])
  }

  /** The loop goes on past page `k`: the listing is a full array and every
      match in it was fetched. */
  predicate Continues(pages: Pages, k: nat) {
    && ListingAt(pages, k).Ok?
    && ListingAt(pages, k).value.Ids?
    && |ListingAt(pages, k).value.details| >= PageSize
    && AllFetched(ListingAt(pages, k).value.details)
  }

  function ListingInfos(l: Result<Listing>): seq<Option<MatchInfo>> {
    match l
    case Ok(Ids(ds)) => Infos(ds)
    case _ => []
  }

  /** The matches of the first `n` pages, in order. */
  function ProcessedInfos(pages: Pages, n: nat): seq<Option<MatchInfo>> {
    if n == 0 then [] else ProcessedInfos(pages, n - 1) + ListingInfos(ListingAt(pages, n - 1))
  }

  function StopFrom(pages: Pages, k: nat): (n: nat)
    requires k < MaxPages
    decreases MaxPages - k
    ensures k < n <= MaxPages
    ensures forall j :: k <= j < n - 1 ==> Continues(pages, j)
    ensures n < MaxPages ==> !Continues(pages, n - 1)
  {
    if k == MaxPages - 1 || !Continues(pages, k) then k + 1 else StopFrom(pages, k + 1)
  }

  /** How many listings the loop requests: every page but the last one
      requested continues the loop, and the last one stops it unless it is
      the eighth. */
  function PagesRead(pages: Pages): (n: nat)
    ensures 1 <= n <= MaxPages
    ensures forall j :: 0 <= j < n - 1 ==> Continues(pages, j)
    ensures n < MaxPages ==> !Continues(pages, n - 1)
  {
    StopFrom(pages, 0)
  }

  /** The inner loop over one page's matches: the first detail whose fetch
      failed aborts it, otherwise every match is absorbed in order. */
  function TallyDetails(t: Tally, ds: seq<Result<Option<MatchInfo>>>, f: Filter): (r: Result<Tally>)
    decreases |ds|
    ensures r.Ok? <==> AllFetched(ds)
    ensures r.Ok? ==> r.value == TallyAll(t, Infos(ds), f)
    ensures r.Err? ==> exists i :: 0 <= i < |ds| && ds[i] == Err(r.error) && AllFetched(ds[..i])
  {
    if |ds| == 0 then Ok(t)
    else match ds[0]
      case Err(e) =>
        assert !AllFetched(ds) && ds[..0] == [];
        Err(e)
      case Ok(info) =>
        var r := TallyDetails(Absorb(t, info, f), ds[1..], f);
        assert AllFetched(ds) <==> AllFetched(ds[1..]) by {
          if AllFetched(ds[1..]) {
            forall i | 0 <= i < |ds| ensures ds[i].Ok? {
              if i > 0 { assert ds[i] == ds[1..][i - 1]; }
            }
          }
        }
        if r.Err? then
          var i :| 0 <= i < |ds[1..]| && ds[1..][i] == Err(r.error) && AllFetched(ds[1..][..i]);
          assert ds[i + 1] == Err(r.error);
          assert ds[..i + 1] == [ds[0]] + ds[1..][..i];
          r
        else
          r
  }

  /** What the last listing requested makes of the tally `before` of the
      pages ahead of it. */
  function LastPage(l: Result<Listing>, before: Tally, f: Filter): Result<Tally> {
    match l
    case Err(e) => Err(e)
    case Ok(NotAnArray) => Ok(before)
    case Ok(Ids(ds)) => TallyDetails(before, ds, f)
  }

  /** Reference definition of the page loop, in closed form: the listings it
      requests are determined by `PagesRead`, and the outcome is the tally of
      every page before the last, carried through the last one. */
  function Pagination(pages: Pages, f: Filter): Run {
    var n := PagesRead(pages);
    Run(LastPage(ListingAt(pages, n - 1), TallyAll(NoMatches, ProcessedInfos(pages, n - 1), f), f),
        Offsets(pages, n))
  }

  /** The `start` of each of the first `n` listing requests. */
  function Offsets(pages: Pages, n: nat): seq<nat> {
    if n == 0 then [] else Offsets(pages, n - 1) + [StartOf(pages, n - 1)]
  }

  /** Each of the first `n` pages continues the loop. */
  predicate AllContinue(pages: Pages, n: nat) {
    n == 0 || (AllContinue(pages, n - 1) && Continues(pages, n - 1))
  }

  /** The page loop as written (`PageLoop`), with the listing requests it
      makes: their number, their `start` offsets and where they stop. */
  method Paginate(pages: Pages, f: Filter) returns (outcome: Result<Tally>, offsets: seq<nat>)
    ensures Run(outcome, offsets) == Pagination(pages, f)
    ensures 1 <= |offsets| <= MaxPages
    ensures forall k :: 0 <= k < |offsets| ==> offsets[k] == StartOf(pages, k)
    ensures forall k :: 0 <= k < |offsets| - 1 ==> Continues(pages, k)
    ensures |offsets| < MaxPages ==> !Continues(pages, |offsets| - 1)
  {
    outcome, offsets := PageLoop(pages, f);
    PaginationShape(pages, f);
  }

  /** The `for` loop over `page`, with `start` and the tally carried along. */
  method PageLoop(pages: Pages, f: Filter) returns (outcome: Result<Tally>, offsets: seq<nat>)
    ensures Run(outcome, offsets) == Pagination(pages, f)
  {
    var tally := NoMatches;
    var start := 0;
    var page := 0;
    offsets := [];
    while page < MaxPages
      invariant page <= MaxPages
      invariant offsets == Offsets(pages, page)
      invariant start == StartOf(pages, page)
      invariant AllContinue(pages, page)
      invariant tally == TallyAll(NoMatches, ProcessedInfos(pages, page), f)
    {
      offsets := offsets + [start];
      var stop, last, next := ReadPage(pages, f, page, tally);
      if stop {
        outcome := last;
        StopsAt(pages, f, page, offsets);
        return;
      }
      TallyAllAppend(NoMatches, ProcessedInfos(pages, page), ListingInfos(ListingAt(pages, page)), f);
      tally := next;
      start := start + ListingLength(pages, page);
      page := page + 1;
    }
    outcome := Ok(tally);
    StopsAt(pages, f, MaxPages - 1, offsets);
    EightFullPages(pages, f);
  }

  /** One pass of the loop body: fetch the listing for page `page` and, if
      it is a non-empty array, tally its matches. `stop` says the loop ends
      here, with outcome `last`; otherwise `next` is the tally carried on. */
  method ReadPage(pages: Pages, f: Filter, page: nat, tally: Tally)
    returns (stop: bool, last: Result<Tally>, next: Tally)
    ensures stop <==> !Continues(pages, page)
    ensures stop ==> last == LastPage(ListingAt(pages, page), tally, f)
    ensures !stop ==> next == TallyAll(tally, ListingInfos(ListingAt(pages, page)), f)
  {
    next := tally;
    var listing := ListingAt(pages, page);
    if listing.Err? {
      return true, Err(listing.error), next;
    }
    if listing.value.NotAnArray? || |listing.value.details| == 0 {
      return true, Ok(tally), next;
    }
    var ds := listing.value.details;
    var tallied := TallyPage(tally, ds, f);
    if tallied.Err? || |ds| < PageSize {
      return true, tallied, next;
    }
    return false, tallied, tallied.value;
  }

  /** The loop ends after page `page`: the run is the closed form's. */
  lemma StopsAt(pages: Pages, f: Filter, page: nat, offsets: seq<nat>)
    requires page < MaxPages
    requires offsets == Offsets(pages, page + 1)
    requires AllContinue(pages, page)
    requires page + 1 < MaxPages ==> !Continues(pages, page)
    ensures Pagination(pages, f) ==
              Run(LastPage(ListingAt(pages, page), TallyAll(NoMatches, ProcessedInfos(pages, page), f), f), offsets)
  {
    AllContinueMeans(pages, page);
    PagesReadIs(pages, page + 1);
  }

  lemma {:induction false} AllContinueMeans(pages: Pages, n: nat)
    ensures AllContinue(pages, n) <==> forall k :: 0 <= k < n ==> Continues(pages, k)
  {
    if n > 0 {
      AllContinueMeans(pages, n - 1);
    }
  }

  lemma {:induction false} OffsetsAreStarts(pages: Pages, n: nat)
    ensures |Offsets(pages, n)| == n
    ensures forall k :: 0 <= k < n ==> Offsets(pages, n)[k] == StartOf(pages, k)
  {
    if n > 0 {
      OffsetsAreStarts(pages, n - 1);
    }
  }

  /** The listings the loop requests: at least one and at most eight; every
      one but the last continues the loop, and the last stops it unless it is
      the eighth; each is requested at the offset of the ids before it. */
  lemma PaginationShape(pages: Pages, f: Filter)
    ensures var offsets := Pagination(pages, f).offsets;
            && 1 <= |offsets| <= MaxPages
            && (forall k :: 0 <= k < |offsets| ==> offsets[k] == StartOf(pages, k))
            && (forall k :: 0 <= k < |offsets| - 1 ==> Continues(pages, k))
            && (|offsets| < MaxPages ==> !Continues(pages, |offsets| - 1))
  {
    OffsetsAreStarts(pages, PagesRead(pages));
  }

  /** The inner loop as written: stop at the first match whose fetch failed. */
  method TallyPage(t: Tally, ds: seq<Result<Option<MatchInfo>>>, f: Filter) returns (r: Result<Tally>)
    ensures r == TallyDetails(t, ds, f)
    ensures r.Ok? <==> AllFetched(ds)
  {
    var tally := t;
    var i := 0;
    while i < |ds|
      invariant i <= |ds|
      invariant TallyDetails(t, ds, f) == TallyDetails(tally, ds[i..], f)
    {
      assert ds[i..][1..] == ds[i + 1..];
      if ds[i].Err? {
        return Err(ds[i].error);
      }
      tally := Absorb(tally, ds[i].value, f);
      i := i + 1;
    }
    return Ok(tally);
  }

  lemma EightFullPages(pages: Pages, f: Filter)
    requires AllContinue(pages, MaxPages)
    ensures Pagination(pages, f).outcome == Ok(TallyAll(NoMatches, ProcessedInfos(pages, MaxPages), f))
  {
    AllContinueMeans(pages, MaxPages);
    PagesReadIs(pages, MaxPages);
    assert Continues(pages, MaxPages - 1);
    TallyAllAppend(NoMatches, ProcessedInfos(pages, MaxPages - 1), Infos(ListingAt(pages, MaxPages - 1).value.details), f);
  }

  /** The listing count is determined by the pages: it is the first page
      that does not continue the loop, or the eighth. */
  lemma PagesReadIs(pages: Pages, n: nat)
    requires 1 <= n <= MaxPages
    requires forall j :: 0 <= j < n - 1 ==> Continues(pages, j)
    requires n < MaxPages ==> !Continues(pages, n - 1)
    ensures PagesRead(pages) == n
  {
  }

  /** A successful loop tallies exactly the matches of the pages it read:
      the count of those the filter accepts, and their earliest and latest
      end times. */
  lemma PaginationTally(pages: Pages, f: Filter)
    ensures var r := Pagination(pages, f);
            r.outcome.Ok? ==>
              Summarizes(r.outcome.value, CountedEnds(ProcessedInfos(pages, |r.offsets|), f))
  {
    var n := PagesRead(pages);
    var r := Pagination(pages, f);
    OffsetsAreStarts(pages, n);
    var prefix := ProcessedInfos(pages, n - 1);
    TallyAllAppend(NoMatches, prefix, ListingInfos(ListingAt(pages, n - 1)), f);
    TallyCountsFilteredMatches(ProcessedInfos(pages, n), f);
    if ListingAt(pages, n - 1) == Ok(NotAnArray) {
      assert ProcessedInfos(pages, n) == prefix + [];
    }
  }

  /** The loop fails exactly when the last listing it requested failed, or
      when a match of that listing failed; the error is that fetch's error. */
  lemma PaginationFailure(pages: Pages, f: Filter)
    ensures var r := Pagination(pages, f);
            var last := ListingAt(pages, |r.offsets| - 1);
            && (r.outcome.Err? <==> last.Err? || (last.value.Ids? && !AllFetched(last.value.details)))
            && (r.outcome.Err? ==>
                  || last == Err(r.outcome.error)
                  || (last.Ok? && last.value.Ids? && Err(r.outcome.error) in last.value.details))
  {
    OffsetsAreStarts(pages, PagesRead(pages));
  }

  /** The counted games of the pages read are, in page order, the counted
      games of each page: a page adds its own matches after the earlier ones. */
  lemma CountedEndsByPage(pages: Pages, f: Filter, n: nat)
    ensures CountedEnds(ProcessedInfos(pages, n + 1), f) ==
              CountedEnds(ProcessedInfos(pages, n), f) + CountedEnds(ListingInfos(ListingAt(pages, n)), f)
  {
    CountedEndsAppend(ProcessedInfos(pages, n), ListingInfos(ListingAt(pages, n)), f);
  }

  /** A page with fewer than fifty ids, after full pages, is processed and
      then ends the loop even though eight pages have not been read. */
  lemma ShortPageEndsLoop(pages: Pages, f: Filter, k: nat)
    requires k < MaxPages && forall j :: 0 <= j < k ==> Continues(pages, j)
    requires ListingAt(pages, k).Ok? && ListingAt(pages, k).value.Ids?
    requires 0 < |ListingAt(pages, k).value.details| < PageSize
    requires AllFetched(ListingAt(pages, k).value.details)
    ensures |Pagination(pages, f).offsets| == k + 1
    ensures Pagination(pages, f).outcome == Ok(TallyAll(NoMatches, ProcessedInfos(pages, k + 1), f))
  {
    PagesReadIs(pages, k + 1);
    OffsetsAreStarts(pages, k + 1);
    TallyAllAppend(NoMatches, ProcessedInfos(pages, k), Infos(ListingAt(pages, k).value.details), f);
  }

  /** A page that is not an array, or is empty, ends the loop before any of
      it is processed. */
  lemma UnusablePageEndsLoop(pages: Pages, f: Filter, k: nat)
    requires k < MaxPages && forall j :: 0 <= j < k ==> Continues(pages, j)
    requires ListingAt(pages, k) == Ok(NotAnArray) || ListingAt(pages, k) == Ok(Ids([]))
    ensures |Pagination(pages, f).offsets| == k + 1
    ensures Pagination(pages, f).outcome == Ok(TallyAll(NoMatches, ProcessedInfos(pages, k), f))
  {
    PagesReadIs(pages, k + 1);
    OffsetsAreStarts(pages, k + 1);
  }

  /** When no listing holds more than fifty ids (the page size asked for),
      the `start` of the listing request for page `k` is 50 * k. */
  lemma OffsetsAreMultiplesOfPageSize(pages: Pages, f: Filter)
    requires forall k :: ListingLength(pages, k) <= PageSize
    ensures var r := Pagination(pages, f);
            forall k :: 0 <= k < |r.offsets| ==> r.offsets[k] == PageSize * k
  {
    var n := PagesRead(pages);
    PaginationShape(pages, f);
    forall k | 0 <= k < n
      ensures StartOf(pages, k) == PageSize * k
    {
      FullPagesStart(pages, k);
    }
  }

  lemma {:induction false} FullPagesStart(pages: Pages, k: nat)
    requires forall j :: 0 <= j < k ==> Continues(pages, j) && ListingLength(pages, j) <= PageSize
    ensures StartOf(pages, k) == PageSize * k
  {
    if k > 0 {
      FullPagesStart(pages, k - 1);
      assert Continues(pages, k - 1);
    }
  }
}

=== FILE: players.dfy ===
/** The driver (`processPlayers`): one record per player of the roster, in
    order, each from that player's own fetches; a player whose processing
    fails gets a zero record with an error status and the run goes on. Then
    the text of the summary message (`sendDiscordSummary`).

    Each player's fetches are given as that player's "world": the script of
    the account lookup, and the script of the listing for each page number,
    whose ids are in turn given by the scripts of their match details. */
module Players {
  import opened Optional
  import opened Fetcher
  import opened Matches
  import opened Paging
  import Decimal

  /** Games a player needs this split. */
  const SplitGoal: nat := 50

  datatype Player = Player(name: string, tag: string)

  /** A listing as served: not an array, or an array of ids, each given by
      the script of its match-detail fetch (the detail's `info` field). */
  datatype ListingBody = NotArrayBody | IdsBody(details: seq<Script<Option<MatchInfo>>>)

  /** The account body is only read for its `puuid`, which is used to build
      URLs; it is kept as an opaque string. */
  datatype PlayerWorld = PlayerWorld(account: Script<string>, listings: seq<Script<ListingBody>>)

  /** A player for whom no request is ever answered. */
  const Unanswered: PlayerWorld := PlayerWorld([], [])

  function WorldAt(worlds: seq<PlayerWorld>, i: nat): PlayerWorld {
    if i < |worlds| then worlds[i] else Unanswered
  }

  function ScriptAt<T>(scripts: seq<Script<T>>, k: nat): Script<T> {
    if k < |scripts| then scripts[k] else []
  }

  /** Fetch every match of a fetched listing, in order. */
  function ResolveListing(r: Result<ListingBody>): Result<Listing> {
    match r
    case Err(e) => Err(e)
    case Ok(NotArrayBody) => Ok(NotAnArray)
    case Ok(IdsBody(scripts)) =>
      Ok(Ids(seq(|scripts|, j requires 0 <= j < |scripts| => FetchWithRetry(scripts[j]).result)))
  }

  /** Fetch every listing, and every match it names. */
  function ResolvePages(listings: seq<Script<ListingBody>>): Pages {
    seq(|listings|, k requires 0 <= k < |listings| => ResolveListing(FetchWithRetry(listings[k]).result))
  }

  /** Every page number, including those past the scripts given, reads the
      listing its script's fetch yields. */
  lemma ResolvedListingAt(listings: seq<Script<ListingBody>>, k: nat)
    ensures ListingAt(ResolvePages(listings), k) == ResolveListing(FetchWithRetry(ScriptAt(listings, k)).result)
  {
    if k >= |listings| {
      SilentServerIsRethrown(ScriptAt(listings, k));
    }
  }

  /** The progress status: "Completed 50", "N left", or "Error". */
  datatype Status = Completed | Left(remaining: nat) | Errored

  /** The status of a player whose processing succeeded with `total`
      counted games. */
  function DeriveStatus(total: nat): (s: Status)
    ensures s.Completed? <==> total >= SplitGoal
    ensures s.Left? ==> 0 < s.remaining <= SplitGoal && total + s.remaining == SplitGoal
    ensures !s.Errored?
  {
    if total >= SplitGoal then Completed else Left(SplitGoal - total)
  }

  const CheckMark: string := "\U{2705}"
  const CrossMark: string := "\U{274C}"
  const CompletedPrefix: string := CheckMark + " Completed "

  /** The status as the message shows it: a check mark exactly when the goal
      is completed, a cross otherwise. */
  function StatusText(s: Status): (t: string)
    ensures |t| > 0
    ensures t[0] == CheckMark[0] <==> s.Completed?
    ensures t[0] == CrossMark[0] <==> !s.Completed?
  {
    match s
    case Completed => CompletedPrefix + Decimal.Render(SplitGoal)
    case Left(n) => CrossMark + " " + Decimal.Render(n) + " left"
    case Errored => CrossMark + " Error"
  }

  /** The three texts: "✅ Completed 50", "❌ N left" with N in decimal, and
      "❌ Error". */
  lemma StatusTexts(n: nat)
    ensures StatusText(Completed) == "\U{2705} Completed 50"
    ensures StatusText(Left(n)) == "\U{274C} " + Decimal.Render(n) + " left"
    ensures StatusText(Errored) == "\U{274C} Error"
  {
    Decimal.RenderFifty();
  }

  /** The status line tells the statuses apart: a reader of the message
      learns exactly which status, and how many games are left. */
  lemma StatusTextInjective(a: Status, b: Status)
    requires StatusText(a) == StatusText(b)
    ensures a == b
  {
    var t := StatusText(a);
    assert t[0] == StatusText(a)[0] == StatusText(b)[0];
    if a.Left? && b.Left? {
      var n := |Decimal.Render(a.remaining)|;
      var m := |Decimal.Render(b.remaining)|;
      assert |t| == n + 7 == m + 7;
      assert Decimal.Render(a.remaining) == t[2..2 + n] == Decimal.Render(b.remaining);
      Decimal.RenderInjective(a.remaining, b.remaining);
    }
  }

  /** One entry of `results`. The first and last game are kept as their
      end timestamps in milliseconds; the job prints their dates. */
  datatype PlayerRecord = PlayerRecord(
    name: string, tag: string, totalMatches: nat,
    first: Option<int>, last: Option<int>, status: Status)

  /** The record pushed by the `catch` block: no games, no dates, and the
      error status, shown as "❌ Error". */
  function ErrorRecord(p: Player): (r: PlayerRecord)
    ensures r.name == p.name && r.tag == p.tag
    ensures r.totalMatches == 0 && r.first.None? && r.last.None?
    ensures r.status.Errored? && StatusText(r.status) == CrossMark + " Error"
  {
    PlayerRecord(p.name, p.tag, 0, None, None, Errored)
  }

  /** The record of a player whose account was found, from the outcome of
      the page loop. */
  function Finish(p: Player, outcome: Result<Tally>): (r: PlayerRecord)
    ensures r.name == p.name && r.tag == p.tag
    ensures outcome.Err? ==> r == ErrorRecord(p)
    ensures outcome.Ok? ==>
              && r.totalMatches == outcome.value.total
              && r.first == outcome.value.first && r.last == outcome.value.last
              && r.status == DeriveStatus(outcome.value.total)
  {
    match outcome
    case Err(_) => ErrorRecord(p)
    case Ok(t) => PlayerRecord(p.name, p.tag, t.total, t.first, t.last, DeriveStatus(t.total))
  }

  /** The body of the `try` for one player, with its `catch`: a failed
      player gets the zero record with the error status, any other gets the
      status its count earns. */
  function ProcessPlayer(p: Player, w: PlayerWorld, splitStartUnix: int): (r: PlayerRecord)
    ensures r.name == p.name && r.tag == p.tag
    ensures r.status.Errored? ==> r == ErrorRecord(p)
    ensures !r.status.Errored? ==> r.status == DeriveStatus(r.totalMatches)
  {
    if FetchWithRetry(w.account).result.Err? then
      ErrorRecord(p)
    else
      Finish(p, Pagination(ResolvePages(w.listings), JobFilter(splitStartUnix)).outcome)
  }

  /** A player's record fails exactly when the account lookup or the page
      loop failed; otherwise it holds the number of counted matches among the
      pages read, and the earliest and latest of their end times. */
  lemma ProcessPlayerTally(p: Player, w: PlayerWorld, splitStartUnix: int)
    ensures var r := ProcessPlayer(p, w, splitStartUnix);
            var pages := ResolvePages(w.listings);
            var run := Pagination(pages, JobFilter(splitStartUnix));
            && (r.status.Errored? <==> FetchWithRetry(w.account).result.Err? || run.outcome.Err?)
            && (!r.status.Errored? ==>
                  Summarizes(Tally(r.totalMatches, r.first, r.last),
                             CountedEnds(ProcessedInfos(pages, |run.offsets|), JobFilter(splitStartUnix))))
  {
    PaginationTally(ResolvePages(w.listings), JobFilter(splitStartUnix));
  }

  /** A player whose account lookup fails gets the zero/error record. */
  lemma FailedLookupGivesErrorRecord(p: Player, w: PlayerWorld, splitStartUnix: int)
    requires FetchWithRetry(w.account).result.Err?
    ensures ProcessPlayer(p, w, splitStartUnix) == ErrorRecord(p)
  {
  }

  /** `processPlayers(players)` up to the summary: each player in turn, the
      failures of one never reaching another. */
  method ProcessPlayers(players: seq<Player>, worlds: seq<PlayerWorld>, splitStartUnix: int)
    returns (results: seq<PlayerRecord>)
    ensures |results| == |players|
    ensures forall i :: 0 <= i < |players| ==>
              && results[i].name == players[i].name
              && results[i].tag == players[i].tag
              && results[i] == ProcessPlayer(players[i], WorldAt(worlds, i), splitStartUnix)
  {
    var g := Processor(worlds, splitStartUnix);
    results := [];
    for i := 0 to |players|
      invariant results == MapIndexed(g, players, i)
    {
      var record := ProcessOne(players[i], WorldAt(worlds, i), splitStartUnix);
      results := results + [record];
    }
    MapIndexedAt(g, players, |players|);
  }

  /** The record of the player at each position of the roster. */
  function Processor(worlds: seq<PlayerWorld>, splitStartUnix: int): (Player, nat) -> PlayerRecord {
    (p: Player, i: nat) => ProcessPlayer(p, WorldAt(worlds, i), splitStartUnix)
  }

  /** `g` applied to the first `n` elements with their positions, in order. */
  function MapIndexed<A, B>(g: (A, nat) -> B, xs: seq<A>, n: nat): seq<B>
    requires n <= |xs|
  {
    if n == 0 then [] else MapIndexed(g, xs, n - 1) + [g(xs[n - 1], n - 1)]
  }

  lemma {:induction false} MapIndexedAt<A, B>(g: (A, nat) -> B, xs: seq<A>, n: nat)
    requires n <= |xs|
    ensures |MapIndexed(g, xs, n)| == n
    ensures forall i :: 0 <= i < n ==> MapIndexed(g, xs, n)[i] == g(xs[i], i)
  {
    if n > 0 {
      MapIndexedAt(g, xs, n - 1);
    }
  }

  /** The `try`/`catch` for one player, with the page loop as written. */
  method ProcessOne(player: Player, world: PlayerWorld, splitStartUnix: int) returns (record: PlayerRecord)
    ensures record == ProcessPlayer(player, world, splitStartUnix)
  {
    if FetchWithRetry(world.account).result.Err? {
      return ErrorRecord(player);
    }
    var outcome, _ := Paginate(ResolvePages(world.listings), JobFilter(splitStartUnix));
    return Finish(player, outcome);
  }

  const SummaryHeader: string := "**\U{1F4CA} Ranked Progress Update (All Players)**\n"

  /** One record's line: the name in bold, then the count of games and the
      status text, ended by a newline. */
  function SummaryLine(r: PlayerRecord): (line: string)
    ensures |line| > |r.name| + 4 + |StatusText(r.status)|
    ensures line[..|r.name| + 4] == "**" + r.name + "**"
    ensures line[|line| - |StatusText(r.status)| - 1..] == StatusText(r.status) + "\n"
  {
    "**" + r.name + "** \U{2013} " + Decimal.Render(r.totalMatches) + " games \U{2013} " + StatusText(r.status) + "\n"
  }

  /** The count of games can be read back from a record's line: it is the
      run of digits right after the bold name and the dash. */
  lemma SummaryLineCount(r: PlayerRecord)
    ensures var line := SummaryLine(r);
            var k := |r.name| + 7;
            var d := Decimal.Render(r.totalMatches);
            && k + |d| <= |line|
            && line[k..k + |d|] == d
            && Decimal.Value(line[k..k + |d|]) == r.totalMatches
  {
    var head := "**" + r.name + "** \U{2013} ";
    var d := Decimal.Render(r.totalMatches);
    var rest := " games \U{2013} " + StatusText(r.status) + "\n";
    assert SummaryLine(r) == head + (d + rest);
    assert |head| == |r.name| + 7;
    Decimal.RenderRoundTrip(r.totalMatches);
  }

  /** The lines of the records, first record first. */
  function Lines(results: seq<PlayerRecord>): seq<string> {
    seq(|results|, i requires 0 <= i < |results| => SummaryLine(results[i]))
  }

  /** Reference definition: the parts joined, first part first. */
  function Concat(parts: seq<string>): string
    decreases |parts|
  {
    if |parts| == 0 then "" else parts[0] + Concat(parts[1..])
  }

  lemma {:induction false} ConcatAppend(parts: seq<string>, x: string)
    ensures Concat(parts + [x]) == Concat(parts) + x
    decreases |parts|
  {
    if |parts| == 0 {
      assert parts + [x] == [x];
    } else {
      assert (parts + [x])[1..] == parts[1..] + [x];
      ConcatAppend(parts[1..], x);
    }
  }

  /** Appending the next part to a text that ends with the first `i` parts
      gives the text ending with the first `i + 1`. */
  lemma ConcatStep(head: string, parts: seq<string>, i: nat)
    requires i < |parts|
    ensures (head + Concat(parts[..i])) + parts[i] == head + Concat(parts[..i + 1])
  {
    ConcatAppend(parts[..i], parts[i]);
    assert parts[..i + 1] == parts[..i] + [parts[i]];
  }

  /** The summary text as `sendDiscordSummary` builds it, one `+=` per record. */
  method BuildSummary(results: seq<PlayerRecord>) returns (summary: string)
    ensures summary == SummaryHeader + Concat(Lines(results))
  {
    ghost var lines := Lines(results);
    summary := SummaryHeader;
    for i := 0 to |results|
      invariant summary == SummaryHeader + Concat(lines[..i])
    {
      ConcatStep(SummaryHeader, lines, i);
      summary := summary + SummaryLine(results[i]);
    }
    assert lines[..|results|] == lines;
  }
}
